=== FILE: README.md ===
# Wi-Fi signal dashboard, modelled in Dafny

The application is a small macOS window. It reads the current Wi-Fi interface:
SSID, BSSID, RSSI and channel, plus a scan of neighbouring networks. It shows
the reading as text and appends a text record of each reading to
`~/Documents/wifi_log.txt`. The repository holds two versions of the same view:

- the "Wi-Fi Signal Dashboard" in `Networking_ToolsApp.swift`, modelled by module `Dashboard`;
- the plainer "Wi-Fi Signal Information" view in `NetworkingTools.swift`, modelled by module `SignalInfo`.

Both files declare the same app and view, so each is a separate module here.
The modules share these helper modules:

- `Text` models the Swift library behaviour the views rely on. This covers decimal
  rendering of `Int` through interpolation, the failable `Int(String)`, division
  that truncates toward zero, `components(separatedBy:)` (`Split`) and
  `joined(separator:)` (`Join`).
- `Platform` models one CoreWLAN reading as an input datatype. A reading is either
  no interface, or an interface with optional SSID, BSSID and channel, an RSSI,
  and a scan that returned networks or threw. A scanned network's security is the
  set of modes for which `supportsSecurity` answers true.
- `LogFile` models the log file as `Option<string>`: absent, or its contents.
  A write appends `entry + "\n"` when the file exists and creates the file with
  that text when it does not. A write that throws leaves the file unchanged,
  because the error is caught and only printed.
- `Variants` compares the two views.

Each view has these parts:

- `GetWiFiInfo` maps the old view strings and a reading to the new view strings,
  and says whether a record is logged. It is logged only when an interface exists.
- `LogEntry` formats the record, and `LogWiFiInfo` appends it.
- `Refresh` is one timer tick or button press. `Run` is a sequence of refreshes.
  `RunWrites` lists the log writes such a run attempts, one per refresh that sees
  an interface.

The timestamp is an opaque string parameter. Whether a write fails is a boolean
parameter.

String concatenations are modelled as written, including the doubled units.
The dashboard stores the SNR as `"<n> dB"` and then logs `"SNR: <n> dB dB"`.
The plainer view stores `" dBm"`, `" MHz"`, `" Mbps"` and `" dB"` in its state
and appends each of them again in the record. Lemmas `Dashboard.LoggedUnits`
and `SignalInfo.LoggedUnits` state which fields carry a doubled unit.

## Model

| member | source | states |
|---|---|---|
| Dashboard.EstimateBandwidth | Networking_ToolsApp.swift:234-237 | for a non-negative width the estimate lies in [0, 10·width]; it is 0 at or below -100 dBm and 10·width at or above 0 dBm |
| Dashboard.EstimateBandwidthMonotonic | Networking_ToolsApp.swift:234-237 | a stronger signal never lowers the estimate on a channel of the same non-negative width |
| SignalInfo.EstimateBandwidth | NetworkingTools.swift:106-110 | the same bounds and end points as the dashboard's copy |
| Variants.EstimatesAgree | NetworkingTools.swift:106-110 | the two views' estimators give the same result for every signal and width |
| Variants.SignalInfoEstimateMonotonic | NetworkingTools.swift:106-110 | the plainer view's estimate is monotonic in the signal strength |
| Text.DivTrunc10 | Networking_ToolsApp.swift:236 | Swift's `/ 10` rounds toward zero: floor for non-negative dividends, ceiling for negative ones |
| Text.IntToString | Networking_ToolsApp.swift:191 | an interpolated `Int` starts with '-' exactly when negative and is otherwise all decimal digits: never a `+`, no leading zero except for 0 itself, at least one digit after a '-', and no space, newline or comma. With `Text.ParseIntOfIntToString` this fixes the one spelling Swift prints |
| Text.ParseInt | Networking_ToolsApp.swift:75 | `Int(String)` succeeds only on an optional sign followed by at least one digit, so a lone sign or a trailing non-digit is rejected, and the sign decides the sign of the value. Digits, signed or not, whose value falls outside `Int` are rejected. Conversely, digits with an optional `+` or `-` whose signed value fits in `Int` parse to that value |
| Text.ParseIntOfIntToString | Networking_ToolsApp.swift:75 | parsing an interpolated `Int` gives back that `Int` |
| Text.Split | Networking_ToolsApp.swift:75 | `components(separatedBy:)` returns at least one piece, and no piece contains the separator |
| Text.SplitJoin | Networking_ToolsApp.swift:102 | splitting a join on its one-character separator gives back the parts, when no part contains it |
| Text.Join | Networking_ToolsApp.swift:242 | `joined(separator:)` of no parts is empty; otherwise the result starts with the first part and ends with the last (partners: `Text.SplitJoin`, `Text.JoinSplit`) |
| Text.JoinSplit | Networking_ToolsApp.swift:102 | joining the pieces of any split with the separator gives back the original string |
| Platform.ChannelWidth.RawValue | Networking_ToolsApp.swift:196 | a channel width's raw value lies in 0–4 and is 0 exactly for an unknown width |
| Platform.WidthScaledRawValue | Networking_ToolsApp.swift:196 | the width computed as raw value × 20 is a multiple of 20 in [0, 80], and is 0 only for an unknown width |
| Platform.ScaledRawValueMisreadsWideChannels | Networking_ToolsApp.swift:196 | raw value × 20 reads 80 MHz as 60 and 160 MHz as 80 |
| Platform.WidthMHz | Networking_ToolsApp.swift:196 | the corrected width: 20·2^(raw-1) MHz for a known width, 0 for an unknown one |
| Platform.ScaledRawValueAgreesUpTo40MHz | NetworkingTools.swift:83 | the computed and corrected widths agree exactly on channels of at most 40 MHz |
| Dashboard.SecurityLabel | Networking_ToolsApp.swift:210-216 | the label names the first supported mode in the order WPA3, WPA2, WPA, Open, and is "Unknown" exactly when none is supported |
| Dashboard.NeighborLines | Networking_ToolsApp.swift:204-224 | an entry has five lines, and none of them holds a line break when the network's SSID and BSSID hold none |
| Dashboard.NeighborEntry | Networking_ToolsApp.swift:218-224 | an entry opens with "SSID: " and closes with "Security: " and the security label |
| Dashboard.NeighborEntryLines | Networking_ToolsApp.swift:204-225 | when the names hold no newline, an entry splits into exactly five lines (SSID, BSSID, RSSI, Channel, Security) with defaults "Hidden", "Unknown BSSID" and channel 0 |
| Dashboard.GetWiFiInfo | Networking_ToolsApp.swift:172-232 | logs exactly when an interface exists. Without one: "No interface found", "N/A" everywhere else, no neighbours, status "No Wi-Fi interface detected". With one: the SSID, or "Unknown SSID"; the BSSID, or "Unknown BSSID"; "<rssi> dBm"; and SNR "<rssi+90> dB". A channel gives its number, the width computed as raw value × 20, and the estimate for that width; a missing channel keeps channel, width and bandwidth. A scan gives one entry per network in order and "Found <n> networks"; a failure gives no neighbours and "Scan failed: " followed by the error's description |
| Dashboard.GetWiFiInfoIdempotent | Networking_ToolsApp.swift:172-232 | a second refresh from the same reading changes nothing |
| Dashboard.ShownWidthCorrectUpTo40MHz | Networking_ToolsApp.swift:196-197 | the shown channel width equals the width the channel names exactly when that width is at most 40 MHz |
| Dashboard.BarRssi | Networking_ToolsApp.swift:75 | a bar is drawn only when the signal text starts with a digit or a sign, and a leading '-' gives a non-positive RSSI |
| Dashboard.BarRssiAfterRefresh | Networking_ToolsApp.swift:75-77 | after a refresh, the first token of the signal text parses back to the interface's RSSI; with no interface, "N/A" does not parse and no bar is shown |
| Dashboard.SignalBarColor | Networking_ToolsApp.swift:162 | green exactly from -60 dBm up, orange exactly in [-75, -60), red exactly below -75 dBm |
| Dashboard.SignalBarColorMonotonic | Networking_ToolsApp.swift:162 | the bar colour never worsens as the signal strengthens, and it changes at -60 and -75 dBm |
| Dashboard.HeaderOpensWithSsid | Networking_ToolsApp.swift:242 | a record starts with the bracketed timestamp followed by the SSID field |
| Dashboard.LogEntry | Networking_ToolsApp.swift:241-242 | a record starts with the timestamp and SSID and ends with a newline; with no neighbours it is the header, "Nearby Networks:" and two newlines |
| Dashboard.LogWiFiInfo | Networking_ToolsApp.swift:239-257 | a successful write appends the record and one newline after the old contents; a failed write leaves the file as it was |
| Dashboard.LoggedRecordLines | Networking_ToolsApp.swift:241-245 | a logged record reads as the header line, "Nearby Networks:", the lines of the neighbour block, then a blank line |
| Dashboard.LoggedUnits | Networking_ToolsApp.swift:242 | after a refresh with an interface, the logged SNR reads "<rssi+90> dB dB". Signal strength carries its unit once, and so do the raw-value × 20 channel width and its bandwidth estimate |
| Dashboard.Refresh | Networking_ToolsApp.swift:172-231 | the new view is the one `GetWiFiInfo` computes. A refresh without an interface, or whose write fails, leaves the file exactly as it was, so no file is created. Otherwise a file exists afterwards and holds the old contents followed by that view's record and a newline |
| Dashboard.Run | Networking_ToolsApp.swift:259-263 | successive refreshes only ever extend the log, and refreshes that never see an interface leave it untouched |
| Dashboard.RunWrites | Networking_ToolsApp.swift:259-263 | a run attempts exactly one log write per refresh that sees an interface |
| Dashboard.RunPerformsRunWrites | Networking_ToolsApp.swift:259-263 | a run leaves the log file exactly as performing its writes in order does |
| Dashboard.RunFromLaunch | Networking_ToolsApp.swift:132-134 | from the initial view and no log file, the log holds exactly the records of the refreshes that saw an interface and wrote successfully, in order, and the file exists exactly when one such write happened |
| LogFile.Append | Networking_ToolsApp.swift:244-256 | the old contents stay a prefix; a successful write adds exactly the entry and a newline, creating the file if needed; a failed write changes nothing |
| LogFile.AppendAll | Networking_ToolsApp.swift:244-253 | a run of writes keeps the old contents as a prefix and never removes an existing file |
| LogFile.AppendAllWritesInOrder | Networking_ToolsApp.swift:244-253 | after a run of writes, the file holds its old contents followed by every successful entry with its newline, in order |
| LogFile.AppendAllCreates | Networking_ToolsApp.swift:246-253 | a run of writes leaves a file in place exactly when one existed before or some write succeeded |
| SignalInfo.GetWiFiInfo | NetworkingTools.swift:64-104 | logs exactly when an interface exists. Without one: "No interface found", "N/A" in the other six fields, and the neighbour list kept. With one: the SSID, or "Unknown SSID"; the BSSID, or "Unknown BSSID"; "<rssi> dBm"; and SNR "<rssi+90> dB". A channel gives its number, "<w> MHz" for w the raw value × 20, and "<estimate> Mbps" for that width; a missing channel keeps the old values. A scan gives one line per network in order; a failure gives exactly "Unable to scan Wi-Fi networks" |
| SignalInfo.NeighborLine | NetworkingTools.swift:94-97 | a neighbour's line starts with its SSID, or "Unknown SSID", and " - ", ends with " dB", and holds no line break when the SSID holds none |
| SignalInfo.NeighborLineWords | NetworkingTools.swift:97 | split at spaces, a neighbour's line is the words of its name followed by exactly "-", the RSSI, "dBm", "SNR:", the RSSI + 90, and "dB" |
| SignalInfo.NeighborLineFields | NetworkingTools.swift:97 | counted from the end of the line's words, the fifth is the rendered RSSI and the second is the rendered RSSI + 90 |
| SignalInfo.NeighborLineReadsBack | NetworkingTools.swift:95-97 | the RSSI word of a neighbour's line parses back to the network's RSSI, and the SNR word parses back to RSSI + 90 whenever that fits in `Int` |
| SignalInfo.GetWiFiInfoIdempotent | NetworkingTools.swift:64-104 | a second refresh from the same reading changes nothing |
| SignalInfo.HeaderOpensWithSsid | NetworkingTools.swift:115 | a record starts with the bracketed timestamp followed by the SSID field |
| SignalInfo.LogEntry | NetworkingTools.swift:114-115 | a record starts with the timestamp and SSID; it ends with the last neighbour's line, or with "Nearby Networks: " when there are none |
| SignalInfo.LogWiFiInfo | NetworkingTools.swift:112-131 | a successful write appends the record and exactly one newline; a failed write leaves the file as it was |
| SignalInfo.LoggedRecordLines | NetworkingTools.swift:114-119 | the first line of a logged record holds the status fields and the first neighbour. Each further neighbour has its own line, and the record ends at the next line break |
| SignalInfo.LoggedUnits | NetworkingTools.swift:115 | after a refresh with an interface, the logged signal strength and SNR carry their units twice, and so do the raw-value × 20 channel width and its bandwidth estimate when there is a channel |
| SignalInfo.Refresh | NetworkingTools.swift:64-104 | the new view is the one `GetWiFiInfo` computes. A refresh without an interface, or whose write fails, leaves the file exactly as it was, so no file is created. Otherwise a file exists afterwards and holds the old contents followed by that view's record and a newline |
| SignalInfo.Run | NetworkingTools.swift:133-137 | successive refreshes only ever extend the log, and refreshes that never see an interface leave it untouched |
| SignalInfo.RunWrites | NetworkingTools.swift:133-137 | a run attempts exactly one log write per refresh that sees an interface |
| SignalInfo.RunPerformsRunWrites | NetworkingTools.swift:133-137 | a run leaves the log file exactly as performing its writes in order does |
| SignalInfo.RunFromLaunch | NetworkingTools.swift:58-60 | from the initial view and no log file, the log holds exactly the records of the refreshes that saw an interface and wrote successfully, in order, and the file exists exactly when one such write happened |
| Variants.RefreshesCompared | NetworkingTools.swift:64-91 | from the same reading both views show the same SSID, BSSID, signal and SNR text and agree on logging. Without an interface, the dashboard empties its neighbour list and the plainer view keeps it |

## Findings

| source | as written | input that shows it | evidently intended | confidence | as-written member | corrected member |
|---|---|---|---|---|---|---|
| Networking_ToolsApp.swift:196 | The channel width is computed as `channelWidth.rawValue * 20`; NetworkingTools.swift:83 does the same | An 80 MHz channel (raw value 3) is shown and logged as 60 MHz. A 160 MHz channel (raw value 4) becomes 80 MHz, and the bandwidth estimate is scaled by the wrong width | The width in MHz that the enumeration names | medium: depends on CoreWLAN's raw values 0–4 for unknown, 20, 40, 80 and 160 MHz; not executed | Platform.ScaledRawValueMisreadsWideChannels | Platform.WidthMHz |

Both views in this model compute the width as written, with
`Platform.WidthScaledRawValue`. `Platform.WidthMHz` is the corrected width.
`Platform.ScaledRawValueAgreesUpTo40MHz` shows that the two agree exactly on the
widths up to 40 MHz, and `Dashboard.ShownWidthCorrectUpTo40MHz` carries that to
the width the dashboard shows.

## Left out

- SwiftUI layout, styling, animation and the `@main` app structs are left out. They are presentation only.
- ContentView.swift is not part of this model. It only binds a text editor to a document type that is not shown.
- CoreWLAN calls (`CWWiFiClient`, `interface()`, `scanForNetworks`, `supportsSecurity`) are not modelled. Their answers are the `Platform.Reading` input.
- In NetworkingTools.swift the scan asks for the interface a second time. A nil answer there is folded into `ScanFailed`.
- The scan error's `localizedDescription` is an opaque string.
- `scanForNetworks(withSSID:)` answers a `Set` of networks. `Scanned(networks)` lists that set in its unspecified iteration order, each network once; the model does not fix that order.
- `LocationManager` and the location-permission request are platform callbacks and are left out.
- `Timer.scheduledTimer` is left out. `Run` models the sequence of refreshes that the timer and the button trigger, one after another. Overlap between a manual refresh and a timer tick is a concurrency concern and is not modelled.
- `Date().formatted` depends on the locale. The timestamp is an opaque string.
- The `print` of the interface name and of write errors is console output and is left out.
- The floating-point fill of the signal bar (Networking_ToolsApp.swift:161) is left out. Only its colour thresholds are modelled.
- The file system is reduced to the file's text. Atomic writes, `FileHandle`, UTF-8 encoding and the log path are not modelled. The deprecated `FileHandle.write` raises instead of throwing, and that crash path is not modelled.
- Dashboard.GetWiFiInfo: computes rssi+90 and clamp arithmetic on unbounded integers. Swift would trap on overflow near `Int.max`, and that trap is not modelled. The same holds for SignalInfo.GetWiFiInfo and both EstimateBandwidth functions.
- The UI's extra unit suffixes on displayed rows are left out. Examples are `"\(wifiChannelWidth) MHz"` at Networking_ToolsApp.swift:80 and NetworkingTools.swift:36-40. They affect only the screen, not the state or the log.

=== FILE: dashboard.dfy ===
/**
 The "Wi-Fi Signal Dashboard" view (Networking_ToolsApp.swift): its state
 strings, the refresh that fills them from one reading of the interface, the
 signal bar's parse of the signal text, and the log record it appends.
 */
module Dashboard {
  import opened Text
  import opened Platform
  import LogFile

  /** The fixed noise floor, in dBm, that SNR is measured against. */
  const NoiseFloor: int := -90

  const Placeholder: string := "N/A"

  /** The view's state strings. */
  datatype View = View(
    ssid: string,
    signalStrength: string,
    channel: string,
    channelWidth: string,
    bssid: string,
    snr: string,
    bandwidth: string,
    neighborhood: seq<string>,
    scanStatus: string)

  const InitialView: View :=
    View("Not connected", Placeholder, Placeholder, Placeholder, Placeholder, Placeholder, Placeholder,
         [], "Not scanned")

  // ---------------------------------------------------------------------------
  // Derived quantities

  /** The bandwidth heuristic: a quality factor in [0, 100] derived from the
      signal strength, scaled by the channel width and divided by ten. */
  function EstimateBandwidth(signalStrength: int, channelWidth: int): (mbps: int)
    ensures channelWidth >= 0 ==> 0 <= mbps <= 10 * channelWidth
    ensures channelWidth >= 0 && signalStrength <= -100 ==> mbps == 0
    ensures signalStrength >= 0 ==> mbps == 10 * channelWidth
  {
    var quality := Max(0, Min(100, signalStrength + 100));
    MulMonotone(quality, 100, channelWidth);
    DivTrunc10(quality * channelWidth)
  }

  /** A stronger signal never lowers the estimate on a channel of the same width. */
  lemma {:induction false} EstimateBandwidthMonotonic(weaker: int, stronger: int, channelWidth: int)
    requires weaker <= stronger
    requires channelWidth >= 0
    ensures EstimateBandwidth(weaker, channelWidth) <= EstimateBandwidth(stronger, channelWidth)
  {
    var q1 := Max(0, Min(100, weaker + 100));
    var q2 := Max(0, Min(100, stronger + 100));
    MulMonotone(q1, q2, channelWidth);
  }

  // ---------------------------------------------------------------------------
  // Scan results

  /** The security modes the dashboard reports, strongest first, and their labels. */
  const Precedence: seq<SecurityMode> := [Wpa3Personal, Wpa2Personal, WpaPersonal, NoSecurity]
  const PrecedenceLabels: seq<string> := ["WPA3", "WPA2", "WPA", "Open"]

  /** The label of the first mode in precedence order that the network supports,
      or "Unknown" when it supports none of them. */
  function SecurityLabel(modes: set<SecurityMode>): (shown: string)
    ensures shown in PrecedenceLabels || shown == "Unknown"
    ensures '\n' !in shown
    ensures shown == "Unknown" <==> forall i :: 0 <= i < |Precedence| ==> Precedence[i] !in modes
    ensures forall i :: 0 <= i < |PrecedenceLabels| && shown == PrecedenceLabels[i] ==>
      Precedence[i] in modes && forall j :: 0 <= j < i ==> Precedence[j] !in modes
  {
    assert Precedence[0] == Wpa3Personal && Precedence[1] == Wpa2Personal;
    assert Precedence[2] == WpaPersonal && Precedence[3] == NoSecurity;
    if Wpa3Personal in modes then "WPA3"
    else if Wpa2Personal in modes then "WPA2"
    else if WpaPersonal in modes then "WPA"
    else if NoSecurity in modes then "Open"
    else "Unknown"
  }

  predicate HasNoNewline(o: Option<string>)
  {
    o.Some? ==> '\n' !in o.value
  }

  /** The five lines of a neighbour's entry; none holds a line break when the
      network's names hold none. */
  function NeighborLines(n: Network): (lines: seq<string>)
    ensures |lines| == 5
    ensures HasNoNewline(n.ssid) && HasNoNewline(n.bssid) ==> forall i :: 0 <= i < 5 ==> '\n' !in lines[i]
  {
    var ssid := match n.ssid case Some(s) => s case None => "Hidden";
    var bssid := match n.bssid case Some(b) => b case None => "Unknown BSSID";
    var channel := match n.channel case Some(c) => c.number as int case None => 0;
    var security := SecurityLabel(n.security);
    var lines :=
      ["SSID: " + ssid,
       "BSSID: " + bssid,
       "RSSI: " + IntToString(n.rssi) + " dBm",
       "Channel: " + IntToString(channel),
       "Security: " + security];
    assert '\n' !in lines[2] && '\n' !in lines[3] && '\n' !in lines[4] by {
      assert '\n' !in IntToString(n.rssi) && '\n' !in IntToString(channel);
    }
    lines
  }

  /** A neighbour's entry: its lines separated by newlines, no trailing newline.
      It opens with the SSID line and closes with the security label. */
  function NeighborEntry(n: Network): (entry: string)
    ensures "SSID: " <= entry
    ensures EndsWith(entry, "Security: " + SecurityLabel(n.security))
  {
    Join(NeighborLines(n), "\n")
  }

  /** When the network's names hold no newline, the view's split of an entry
      into lines yields exactly its five fields, with their defaults. */
  lemma NeighborEntryLines(n: Network)
    requires HasNoNewline(n.ssid) && HasNoNewline(n.bssid)
    ensures |Split(NeighborEntry(n), '\n')| == 5
    ensures Split(NeighborEntry(n), '\n')[0] == "SSID: " + (if n.ssid.Some? then n.ssid.value else "Hidden")
    ensures Split(NeighborEntry(n), '\n')[1] == "BSSID: " + (if n.bssid.Some? then n.bssid.value else "Unknown BSSID")
    ensures Split(NeighborEntry(n), '\n')[2] == "RSSI: " + IntToString(n.rssi) + " dBm"
    ensures Split(NeighborEntry(n), '\n')[3] == "Channel: " + IntToString(if n.channel.Some? then n.channel.value.number else 0)
    ensures Split(NeighborEntry(n), '\n')[4] == "Security: " + SecurityLabel(n.security)
  {
    var lines := NeighborLines(n);
    assert NeighborEntry(n) == Join(lines, "\n");
    SplitJoin(lines, '\n');
  }

  // ---------------------------------------------------------------------------
  // Refresh

  /** The new view after one refresh, and whether the refresh goes on to log. */
  datatype Update = Update(view: View, logs: bool)

  function GetWiFiInfo(v: View, reading: Reading): (u: Update)
    ensures u.logs <==> reading.Present?
    ensures reading.NoInterface? ==>
      && u.view.ssid == "No interface found"
      && u.view.signalStrength == Placeholder && u.view.bssid == Placeholder
      && u.view.channel == Placeholder && u.view.channelWidth == Placeholder
      && u.view.snr == Placeholder && u.view.bandwidth == Placeholder
      && u.view.neighborhood == []
      && u.view.scanStatus == "No Wi-Fi interface detected"
    ensures reading.Present? ==>
      && u.view.ssid == (if reading.iface.ssid.Some? then reading.iface.ssid.value else "Unknown SSID")
      && u.view.bssid == (if reading.iface.bssid.Some? then reading.iface.bssid.value else "Unknown BSSID")
      && u.view.signalStrength == IntToString(reading.iface.rssi) + " dBm"
      && u.view.snr == IntToString(reading.iface.rssi + 90) + " dB"
    ensures reading.Present? && reading.iface.channel.None? ==>
      u.view.channel == v.channel && u.view.channelWidth == v.channelWidth && u.view.bandwidth == v.bandwidth
    ensures reading.Present? && reading.iface.channel.Some? ==>
      var width := WidthScaledRawValue(reading.iface.channel.value.width);
      && u.view.channel == IntToString(reading.iface.channel.value.number)
      && u.view.channelWidth == IntToString(width)
      && u.view.bandwidth == IntToString(EstimateBandwidth(reading.iface.rssi, width))
    ensures reading.Present? && reading.scan.Scanned? ==>
      && |u.view.neighborhood| == |reading.scan.networks|
      && (forall i :: 0 <= i < |u.view.neighborhood| ==>
            u.view.neighborhood[i] == NeighborEntry(reading.scan.networks[i]))
      && u.view.scanStatus == "Found " + IntToString(|reading.scan.networks|) + " networks"
    ensures reading.Present? && reading.scan.ScanFailed? ==>
      && u.view.neighborhood == []
      && u.view.scanStatus == "Scan failed: " + reading.scan.description
  {
    match reading
    case NoInterface =>
      Update(View("No interface found", Placeholder, Placeholder, Placeholder, Placeholder, Placeholder,
                  Placeholder, [], "No Wi-Fi interface detected"),
             false)
    case Present(iface, scan) =>
      var ssid := match iface.ssid case Some(s) => s case None => "Unknown SSID";
      var bssid := match iface.bssid case Some(b) => b case None => "Unknown BSSID";
      var signal := IntToString(iface.rssi) + " dBm";
      var snr := IntToString(iface.rssi - NoiseFloor) + " dB";
      var (channel, channelWidth, bandwidth) :=
        match iface.channel
        case Some(c) =>
          var width := WidthScaledRawValue(c.width);
          (IntToString(c.number), IntToString(width), IntToString(EstimateBandwidth(iface.rssi, width)))
        case None => (v.channel, v.channelWidth, v.bandwidth);
      var (neighborhood, status) :=
        match scan
        case Scanned(networks) =>
          (seq(|networks|, i requires 0 <= i < |networks| => NeighborEntry(networks[i])),
           "Found " + IntToString(|networks|) + " networks")
        case ScanFailed(description) => ([], "Scan failed: " + description);
      Update(View(ssid, signal, channel, channelWidth, bssid, snr, bandwidth, neighborhood, status), true)
  }

  /** Refreshing twice from the same reading leaves the view as one refresh did. */
  lemma GetWiFiInfoIdempotent(v: View, reading: Reading)
    ensures GetWiFiInfo(GetWiFiInfo(v, reading).view, reading) == GetWiFiInfo(v, reading)
  {
  }

  /** The shown width is the width the channel names exactly on channels up to
      40 MHz; wider channels are shown narrower than they are. */
  lemma ShownWidthCorrectUpTo40MHz(v: View, iface: Interface, scan: ScanOutcome)
    requires iface.channel.Some?
    ensures var w := iface.channel.value.width;
      GetWiFiInfo(v, Present(iface, scan)).view.channelWidth == IntToString(WidthMHz(w)) <==> WidthMHz(w) <= 40
  {
    var w := iface.channel.value.width;
    ScaledRawValueAgreesUpTo40MHz(w);
    ParseIntOfIntToString(WidthScaledRawValue(w));
    ParseIntOfIntToString(WidthMHz(w));
  }

  // ---------------------------------------------------------------------------
  // Signal bar

  /** The RSSI the signal bar is drawn for: the first space-separated token of
      the signal text, if it parses as an integer. */
  function BarRssi(signalStrength: string): (r: Option<Int64>)
    ensures r.Some? ==> 1 <= |signalStrength|
    ensures r.Some? ==> IsDigit(signalStrength[0]) || signalStrength[0] == '-' || signalStrength[0] == '+'
    ensures r.Some? && signalStrength[0] == '-' ==> r.value <= 0
    ensures r.Some? && signalStrength[0] != '-' ==> r.value >= 0
  {
    SplitFirstIsPrefix(signalStrength, ' ');
    ParseInt(Split(signalStrength, ' ')[0])
  }

  /** After a refresh the bar shows exactly the interface's RSSI, and no bar
      is shown when there is no interface. */
  lemma BarRssiAfterRefresh(v: View, reading: Reading)
    ensures BarRssi(GetWiFiInfo(v, reading).view.signalStrength)
         == (if reading.Present? then Some(reading.iface.rssi) else None)
  {
    var signal := GetWiFiInfo(v, reading).view.signalStrength;
    if reading.Present? {
      var token := IntToString(reading.iface.rssi);
      assert signal == token + [' '] + "dBm";
      SplitConcat(token, ' ', "dBm");
      SplitWithoutSeparator(token, ' ');
      ParseIntOfIntToString(reading.iface.rssi);
    } else {
      SplitWithoutSeparator(Placeholder, ' ');
    }
  }

  datatype BarColor = Green | Orange | Red
  {
    function Rank(): nat
    {
      match this
      case Red => 0
      case Orange => 1
      case Green => 2
    }
  }

  /** The bar's colour: green from -60 dBm up, orange from -75 dBm, red below. */
  function SignalBarColor(rssi: int): (c: BarColor)
    ensures c == Green <==> -60 <= rssi
    ensures c == Orange <==> -75 <= rssi < -60
    ensures c == Red <==> rssi < -75
  {
    if rssi >= -60 then Green else if rssi >= -75 then Orange else Red
  }

  /** A stronger signal never gets a worse colour, and the thresholds are where
      the colour changes. */
  lemma SignalBarColorMonotonic(weaker: int, stronger: int)
    requires weaker <= stronger
    ensures SignalBarColor(weaker).Rank() <= SignalBarColor(stronger).Rank()
    ensures SignalBarColor(-60) == Green && SignalBarColor(-61) == Orange
    ensures SignalBarColor(-75) == Orange && SignalBarColor(-76) == Red
  {
  }

  // ---------------------------------------------------------------------------
  // Logging

  /** The labelled fields of a record's first line, units appended as written. */
  function RecordFields(v: View): seq<string>
  {
    ["SSID: " + v.ssid,
     "BSSID: " + v.bssid,
     "Signal Strength: " + v.signalStrength,
     "Channel: " + v.channel,
     "Channel Width: " + v.channelWidth + " MHz",
     "SNR: " + v.snr + " dB",
     "Estimated Bandwidth: " + v.bandwidth + " Mbps"]
  }

  function HeaderLine(v: View, timestamp: string): string
  {
    "[" + timestamp + "], " + Join(RecordFields(v), ", ")
  }

  /** A header line, whatever follows it, starts with the timestamp and the SSID. */
  lemma HeaderOpensWithSsid(v: View, timestamp: string, rest: string)
    ensures "[" + timestamp + "], SSID: " + v.ssid + ", " <= HeaderLine(v, timestamp) + rest
  {
    var fields := RecordFields(v);
    var stamp := "[" + timestamp;
    var others := Join(fields[1..], ", ");
    calc {
      HeaderLine(v, timestamp);
      stamp + "], " + (("SSID: " + v.ssid) + ", " + others);
      { ConcatAssociates(stamp + "], ", ("SSID: " + v.ssid) + ", ", others); }
      stamp + "], " + (("SSID: " + v.ssid) + ", ") + others;
      { ConcatAssociates(stamp + "], ", "SSID: " + v.ssid, ", "); }
      stamp + "], " + ("SSID: " + v.ssid) + ", " + others;
      { ConcatAssociates(stamp + "], ", "SSID: ", v.ssid);
        ConcatAssociates(stamp, "], ", "SSID: ");
        assert "], " + "SSID: " == "], SSID: "; }
      stamp + "], SSID: " + v.ssid + ", " + others;
    }
    ConcatAssociates(stamp + "], SSID: " + v.ssid + ", ", others, rest);
  }

  /** The record: the header line, a "Nearby Networks:" line, the entries
      separated by blank lines, and a final newline. */
  function LogEntry(v: View, timestamp: string): (entry: string)
    ensures "[" + timestamp + "], SSID: " + v.ssid + ", " <= entry
    ensures entry[|entry| - 1] == '\n'
    ensures |v.neighborhood| == 0 ==> entry == HeaderLine(v, timestamp) + "\nNearby Networks:\n\n"
  {
    var tail := "\nNearby Networks:\n" + Join(v.neighborhood, "\n\n") + "\n";
    HeaderOpensWithSsid(v, timestamp, tail);
    HeaderLine(v, timestamp) + tail
  }

  /** Appends the record and one more newline; a failed write is swallowed. */
  function LogWiFiInfo(v: View, timestamp: string, f: LogFile.File, ioFails: bool): (r: LogFile.File)
    ensures ioFails ==> r == f
    ensures !ioFails ==> r.Some? && LogFile.Contents(r) == LogFile.Contents(f) + LogEntry(v, timestamp) + "\n"
  {
    LogFile.Append(f, LogEntry(v, timestamp), ioFails)
  }

  /** In the log, a record reads as its header line, the "Nearby Networks:"
      line, the lines of the neighbour block, and then a blank line. */
  lemma LoggedRecordLines(v: View, timestamp: string)
    requires '\n' !in HeaderLine(v, timestamp)
    ensures Split(LogEntry(v, timestamp) + "\n", '\n')
         == [HeaderLine(v, timestamp), "Nearby Networks:"] + Split(Join(v.neighborhood, "\n\n"), '\n') + ["", ""]
  {
    var h := HeaderLine(v, timestamp);
    var block := Join(v.neighborhood, "\n\n");
    var title := "Nearby Networks:";
    assert "\nNearby Networks:\n" == ['\n'] + title + ['\n'];
    ConcatAssociates(h, ['\n'] + title, ['\n']);
    ConcatAssociates(h, ['\n'], title);
    assert LogEntry(v, timestamp) + "\n" == h + ['\n'] + title + ['\n'] + block + ['\n'] + ['\n'];
    SplitTwoLinesBlockTwoBreaks(h, "Nearby Networks:", block, '\n');
  }

  /** The record of a refresh carries the SNR with its unit twice, while the
      signal strength, channel width and bandwidth carry theirs once. */
  lemma LoggedUnits(v: View, reading: Reading)
    requires reading.Present?
    ensures RecordFields(GetWiFiInfo(v, reading).view)[2]
         == "Signal Strength: " + IntToString(reading.iface.rssi) + " dBm"
    ensures RecordFields(GetWiFiInfo(v, reading).view)[5]
         == "SNR: " + IntToString(reading.iface.rssi + 90) + " dB dB"
    ensures reading.iface.channel.Some? ==>
      var width := WidthScaledRawValue(reading.iface.channel.value.width);
      && RecordFields(GetWiFiInfo(v, reading).view)[4] == "Channel Width: " + IntToString(width) + " MHz"
      && RecordFields(GetWiFiInfo(v, reading).view)[6]
         == "Estimated Bandwidth: " + IntToString(EstimateBandwidth(reading.iface.rssi, width)) + " Mbps"
  {
    var signal := IntToString(reading.iface.rssi);
    var snr := IntToString(reading.iface.rssi + 90);
    ConcatAssociates("Signal Strength: ", signal, " dBm");
    ConcatAssociates("SNR: ", snr, " dB");
    ConcatAssociates("SNR: " + snr, " dB", " dB");
    assert " dB" + " dB" == " dB dB";
  }

  // ---------------------------------------------------------------------------
  // One refresh cycle and a run of them

  datatype Cycle = Cycle(view: View, file: LogFile.File)

  /** One refresh (timer tick or button): update the view from the reading and,
      when an interface was present, append the record stamped `timestamp`. */
  function Refresh(v: View, reading: Reading, timestamp: string, f: LogFile.File, ioFails: bool): (c: Cycle)
    ensures c.view == GetWiFiInfo(v, reading).view
    ensures reading.NoInterface? || ioFails ==> c.file == f
    ensures reading.Present? && !ioFails ==> c.file.Some?
    ensures LogFile.Contents(c.file)
         == LogFile.Contents(f) + (if reading.Present? && !ioFails then LogEntry(c.view, timestamp) + "\n" else "")
  {
    var u := GetWiFiInfo(v, reading);
    if u.logs then
      var logged := LogWiFiInfo(u.view, timestamp, f, ioFails);
      ConcatAssociates(LogFile.Contents(f), LogEntry(u.view, timestamp), "\n");
      assert LogFile.Contents(f) + "" == LogFile.Contents(f);
      Cycle(u.view, logged)
    else
      Cycle(u.view, f)
  }

  /** What the environment supplies to one refresh. */
  datatype Tick = Tick(reading: Reading, timestamp: string, ioFails: bool)

  /** A sequence of refreshes, one after the other. */
  function Run(v: View, f: LogFile.File, ticks: seq<Tick>): (c: Cycle)
    ensures LogFile.Contents(f) <= LogFile.Contents(c.file)
    ensures (forall i :: 0 <= i < |ticks| ==> ticks[i].reading.NoInterface?) ==> c.file == f
    decreases |ticks|
  {
    if |ticks| == 0 then Cycle(v, f)
    else
      var c := Refresh(v, ticks[0].reading, ticks[0].timestamp, f, ticks[0].ioFails);
      Run(c.view, c.file, ticks[1..])
  }

  /** The number of refreshes in `ticks` that see an interface. */
  function LoggingTicks(ticks: seq<Tick>): nat
    decreases |ticks|
  {
    if |ticks| == 0 then 0
    else (if ticks[0].reading.Present? then 1 else 0) + LoggingTicks(ticks[1..])
  }

  /** The log writes a run attempts, in order: one per refresh that sees an
      interface, holding that refresh's record and whether its write fails. */
  function RunWrites(v: View, ticks: seq<Tick>): (writes: seq<LogFile.Write>)
    ensures |writes| == LoggingTicks(ticks)
    decreases |ticks|
  {
    if |ticks| == 0 then []
    else
      var u := GetWiFiInfo(v, ticks[0].reading);
      (if u.logs then [LogFile.Write(LogEntry(u.view, ticks[0].timestamp), ticks[0].ioFails)] else [])
      + RunWrites(u.view, ticks[1..])
  }

  /** A run leaves the log as performing its writes in order would. */
  lemma {:induction false} RunPerformsRunWrites(v: View, f: LogFile.File, ticks: seq<Tick>)
    ensures Run(v, f, ticks).file == LogFile.AppendAll(f, RunWrites(v, ticks))
    decreases |ticks|
  {
    if |ticks| > 0 {
      var t := ticks[0];
      var u := GetWiFiInfo(v, t.reading);
      var c := Refresh(v, t.reading, t.timestamp, f, t.ioFails);
      RunPerformsRunWrites(c.view, c.file, ticks[1..]);
      var rest := RunWrites(u.view, ticks[1..]);
      if u.logs {
        var w := LogFile.Write(LogEntry(u.view, t.timestamp), t.ioFails);
        assert ([w] + rest)[0] == w && ([w] + rest)[1..] == rest;
      } else {
        assert [] + rest == rest;
      }
    }
  }

  /** Started from the initial view with no log file, a run's log holds exactly
      the records of the refreshes that saw an interface and wrote successfully,
      in order, and the file exists exactly when one such write happened. */
  lemma RunFromLaunch(ticks: seq<Tick>)
    ensures LogFile.Contents(Run(InitialView, None, ticks).file) == LogFile.Written(RunWrites(InitialView, ticks))
    ensures Run(InitialView, None, ticks).file.Some? <==> LogFile.AnySucceeds(RunWrites(InitialView, ticks))
  {
    RunPerformsRunWrites(InitialView, None, ticks);
    LogFile.AppendAllWritesInOrder(None, RunWrites(InitialView, ticks));
    LogFile.AppendAllCreates(None, RunWrites(InitialView, ticks));
  }
}

=== FILE: logfile.dfy ===
/**
 The log file both views append to, reduced to its text: `None` when no file
 exists at the log path, `Some(contents)` otherwise. Each write either
 succeeds or throws; a thrown error is caught by the caller and the file is
 left as it was (the create path writes atomically, the append path fails
 when the file cannot be opened).
 */
module LogFile {
  import opened Text

  type File = Option<string>

  /** The text of a file, the empty string when it does not exist. */
  function Contents(f: File): string
  {
    match f
    case None => ""
    case Some(text) => text
  }

  /** One attempt to log `entry`; `ioFails` is the platform's answer to the
      open (existing file) or the atomic create (missing file). */
  datatype Write = Write(entry: string, ioFails: bool)

  /** Writes `entry` followed by one newline: appended after the existing
      contents when the file exists, as the whole new file when it does not. */
  function Append(f: File, entry: string, ioFails: bool): (r: File)
    ensures ioFails ==> r == f
    ensures !ioFails ==> r.Some?
    ensures !ioFails ==> |Contents(r)| == |Contents(f)| + |entry| + 1
    ensures Contents(f) <= Contents(r)
    ensures !ioFails ==> Contents(r)[|Contents(f)|..] == entry + "\n"
  {
    if ioFails then f
    else
      match f
      case Some(text) => Some(text + entry + "\n")
      case None => Some(entry + "\n")
  }

  /** Performs the writes in order. */
  function AppendAll(f: File, writes: seq<Write>): (r: File)
    ensures Contents(f) <= Contents(r)
    ensures f.Some? ==> r.Some?
    decreases |writes|
  {
    if |writes| == 0 then f
    else AppendAll(Append(f, writes[0].entry, writes[0].ioFails), writes[1..])
  }

  /** The text one write adds: its entry and a newline, or nothing when it fails. */
  function Added(w: Write): string
  {
    if w.ioFails then "" else w.entry + "\n"
  }

  /** The text the successful writes contribute, in order, each entry followed by a newline. */
  function Written(writes: seq<Write>): string
  {
    if |writes| == 0 then "" else Added(writes[0]) + Written(writes[1..])
  }

  predicate AnySucceeds(writes: seq<Write>)
  {
    exists i :: 0 <= i < |writes| && !writes[i].ioFails
  }

  lemma AppendAdds(f: File, w: Write)
    ensures Contents(Append(f, w.entry, w.ioFails)) == Contents(f) + Added(w)
  {
  }

  /** A run of writes keeps the old contents and adds exactly the successful
      entries, each with its newline, in the order they were written. */
  lemma {:induction false} AppendAllWritesInOrder(f: File, writes: seq<Write>)
    ensures Contents(AppendAll(f, writes)) == Contents(f) + Written(writes)
    decreases |writes|
  {
    if |writes| > 0 {
      var next := Append(f, writes[0].entry, writes[0].ioFails);
      var rest := writes[1..];
      calc {
        Contents(AppendAll(f, writes));
        Contents(AppendAll(next, rest));
        { AppendAllWritesInOrder(next, rest); }
        Contents(next) + Written(rest);
        { AppendAdds(f, writes[0]); }
        Contents(f) + Added(writes[0]) + Written(rest);
        { ConcatAssociates(Contents(f), Added(writes[0]), Written(rest)); }
        Contents(f) + (Added(writes[0]) + Written(rest));
        Contents(f) + Written(writes);
      }
    }
  }

  /** The file comes into existence only if some write of the run succeeds. */
  lemma {:induction false} AppendAllCreates(f: File, writes: seq<Write>)
    ensures AppendAll(f, writes).Some? <==> f.Some? || AnySucceeds(writes)
    decreases |writes|
  {
    if |writes| > 0 {
      var w := writes[0];
      AppendAllCreates(Append(f, w.entry, w.ioFails), writes[1..]);
      if AnySucceeds(writes[1..]) {
        var i :| 0 <= i < |writes[1..]| && !writes[1..][i].ioFails;
        assert writes[i + 1] == writes[1..][i];
      }
      if w.ioFails && AnySucceeds(writes) {
        var i :| 0 <= i < |writes| && !writes[i].ioFails;
        assert writes[1..][i - 1] == writes[i];
      }
    }
  }
}

=== FILE: platform.dfy ===
/**
 One reading of the wireless subsystem, as the views receive it from CoreWLAN.
 The platform calls themselves are not modelled: a `Reading` is the answer
 they gave for one refresh.
 */
module Platform {
  import opened Text

  /** The CoreWLAN security modes the dashboard asks a scanned network about;
      every other mode a network may advertise is `OtherSecurity`. */
  datatype SecurityMode = Wpa3Personal | Wpa2Personal | WpaPersonal | NoSecurity | OtherSecurity

  /** CoreWLAN's channel-width enumeration. */
  datatype ChannelWidth = WidthUnknown | Width20MHz | Width40MHz | Width80MHz | Width160MHz
  {
    /** The enumeration's raw value. */
    function RawValue(): (raw: nat)
      ensures raw <= 4
      ensures raw == 0 <==> this == WidthUnknown
    {
      match this
      case WidthUnknown => 0
      case Width20MHz => 1
      case Width40MHz => 2
      case Width80MHz => 3
      case Width160MHz => 4
    }
  }

  /** The width both views compute from the enumeration: its raw value times
      twenty. Right for the unknown, 20 MHz and 40 MHz widths only. */
  function WidthScaledRawValue(w: ChannelWidth): (mhz: int)
    ensures 0 <= mhz <= 80 && mhz % 20 == 0
    ensures mhz == 0 <==> w == WidthUnknown
  {
    w.RawValue() * 20
  }

  /** The width the enumeration names, in MHz (0 when unknown). */
  function WidthMHz(w: ChannelWidth): (mhz: nat)
    ensures mhz == 0 <==> w == WidthUnknown
    ensures w != WidthUnknown ==> mhz == 20 * Pow2(w.RawValue() - 1)
  {
    match w
    case WidthUnknown => 0
    case Width20MHz => 20
    case Width40MHz => 40
    case Width80MHz => 80
    case Width160MHz => 160
  }

  function Pow2(k: nat): nat
  {
    if k == 0 then 1 else 2 * Pow2(k - 1)
  }

  /** Raw value times twenty reads an 80 MHz channel as 60 MHz and a 160 MHz
      channel as 80 MHz. */
  lemma ScaledRawValueMisreadsWideChannels()
    ensures WidthScaledRawValue(Width80MHz) == 60 != WidthMHz(Width80MHz)
    ensures WidthScaledRawValue(Width160MHz) == 80 != WidthMHz(Width160MHz)
  {
  }

  /** The computed and the named width agree exactly on the channels up to 40 MHz. */
  lemma ScaledRawValueAgreesUpTo40MHz(w: ChannelWidth)
    ensures WidthScaledRawValue(w) == WidthMHz(w) <==> WidthMHz(w) <= 40
  {
  }

  datatype Channel = Channel(number: Int64, width: ChannelWidth)

  /** One network in a scan result; `security` is the set of modes for which
      `supportsSecurity` answers true. */
  datatype Network = Network(
    ssid: Option<string>,
    bssid: Option<string>,
    rssi: Int64,
    channel: Option<Channel>,
    security: set<SecurityMode>)

  /** The current interface: its optional SSID, BSSID and channel, and its RSSI. */
  datatype Interface = Interface(
    ssid: Option<string>,
    bssid: Option<string>,
    rssi: Int64,
    channel: Option<Channel>)

  /** The neighbour scan: the networks found, or the error it threw. The scan
      answers a set of networks; `networks` lists that set in the order its
      iteration visits them, each network once. */
  datatype ScanOutcome = Scanned(networks: seq<Network>) | ScanFailed(description: string)

  /** What one refresh sees: no interface at all, or an interface and its scan. */
  datatype Reading = NoInterface | Present(iface: Interface, scan: ScanOutcome)
}

=== FILE: signalinfo.dfy ===
/**
 The plainer "Wi-Fi Signal Information" view (NetworkingTools.swift): its
 state strings, the refresh that fills them from one reading of the
 interface, and the one-line-per-neighbour log record it appends.
 */
module SignalInfo {
  import opened Text
  import opened Platform
  import LogFile

  /** The fixed noise floor, in dBm, that SNR is measured against. */
  const NoiseFloor: int := -90

  const Placeholder: string := "N/A"

  /** The single neighbour entry shown when the scan fails. */
  const ScanFailureNotice: string := "Unable to scan Wi-Fi networks"

  /** The view's state strings. */
  datatype View = View(
    ssid: string,
    signalStrength: string,
    channel: string,
    channelWidth: string,
    bssid: string,
    snr: string,
    bandwidth: string,
    neighborhood: seq<string>)

  const InitialView: View :=
    View("Not connected", Placeholder, Placeholder, Placeholder, Placeholder, Placeholder, Placeholder, [])

  /** The bandwidth heuristic, written out again in this view: a quality factor
      in [0, 100] scaled by the channel width and divided by ten. */
  function EstimateBandwidth(signalStrength: int, channelWidth: int): (mbps: int)
    ensures channelWidth >= 0 ==> 0 <= mbps <= 10 * channelWidth
    ensures channelWidth >= 0 && signalStrength <= -100 ==> mbps == 0
    ensures signalStrength >= 0 ==> mbps == 10 * channelWidth
  {
    var quality := Max(0, Min(100, signalStrength + 100));
    MulMonotone(quality, 100, channelWidth);
    DivTrunc10(quality * channelWidth)
  }

  /** A neighbour's one-line entry: name, RSSI and SNR, "Unknown SSID" when hidden. */
  function NeighborLine(n: Network): (line: string)
    ensures (if n.ssid.Some? then n.ssid.value else "Unknown SSID") + " - " <= line
    ensures EndsWith(line, " dB")
    ensures (n.ssid.Some? ==> '\n' !in n.ssid.value) ==> '\n' !in line
  {
    var ssid := match n.ssid case Some(s) => s case None => "Unknown SSID";
    var head := ssid + " - " + IntToString(n.rssi) + " dBm SNR: " + IntToString(n.rssi - NoiseFloor);
    EndsWithAppended(head, " dB");
    assert '\n' !in ssid ==> '\n' !in head + " dB" by {
      assert '\n' !in IntToString(n.rssi) && '\n' !in IntToString(n.rssi - NoiseFloor);
      assert '\n' !in " - " && '\n' !in " dBm SNR: " && '\n' !in " dB";
    }
    head + " dB"
  }

  /** Splitting `x + " " + w` at spaces adds `w` as one more piece when `w` has no space. */
  lemma SplitAppendsWord(x: string, w: string)
    requires ' ' !in w
    ensures Split(x + [' '] + w, ' ') == Split(x, ' ') + [w]
  {
    SplitConcat(x, ' ', w);
    SplitWithoutSeparator(w, ' ');
  }

  /** The words of a neighbour's line, with the spaces between them written out. */
  lemma NeighborLineSpaced(name: string, rssi: string, snr: string)
    ensures name + " - " + rssi + " dBm SNR: " + snr + " dB"
         == name + [' '] + "-" + [' '] + rssi + [' '] + "dBm" + [' '] + "SNR:" + [' '] + snr + [' '] + "dB"
  {
    var s1 := name + [' '] + "-";
    var s2 := s1 + [' '] + rssi;
    var s4 := s2 + [' '] + "dBm" + [' '] + "SNR:";
    var s5 := s4 + [' '] + snr;
    assert name + " - " == s1 + [' '] by {
      assert " - " == [' '] + "-" + [' '];
      ConcatAssociates(name, [' '] + "-", [' ']);
      ConcatAssociates(name, [' '], "-");
    }
    assert s2 + " dBm SNR: " == s4 + [' '] by {
      assert " dBm SNR: " == [' '] + "dBm" + [' '] + "SNR:" + [' '];
      ConcatAssociates(s2, [' '] + "dBm" + [' '] + "SNR:", [' ']);
      ConcatAssociates(s2, [' '] + "dBm" + [' '], "SNR:");
      ConcatAssociates(s2, [' '] + "dBm", [' ']);
      ConcatAssociates(s2, [' '], "dBm");
    }
    assert s5 + " dB" == s5 + [' '] + "dB" by {
      assert " dB" == [' '] + "dB";
      ConcatAssociates(s5, [' '], "dB");
    }
  }

  /** Read back at spaces, a neighbour's line is its name's words, then "-",
      the RSSI, "dBm", "SNR:", the RSSI above the noise floor, and "dB". */
  lemma NeighborLineWords(n: Network)
    ensures var name := if n.ssid.Some? then n.ssid.value else "Unknown SSID";
      Split(NeighborLine(n), ' ')
        == Split(name, ' ') + ["-", IntToString(n.rssi), "dBm", "SNR:", IntToString(n.rssi + 90), "dB"]
  {
    var name := if n.ssid.Some? then n.ssid.value else "Unknown SSID";
    var rssi := IntToString(n.rssi);
    var snr := IntToString(n.rssi + 90);
    var s1 := name + [' '] + "-";
    var s2 := s1 + [' '] + rssi;
    var s3 := s2 + [' '] + "dBm";
    var s4 := s3 + [' '] + "SNR:";
    var s5 := s4 + [' '] + snr;
    var p := Split(name, ' ');
    calc {
      Split(NeighborLine(n), ' ');
      { NeighborLineSpaced(name, rssi, snr); }
      Split(s5 + [' '] + "dB", ' ');
      { SplitAppendsWord(s5, "dB"); }
      Split(s5, ' ') + ["dB"];
      { SplitAppendsWord(s4, snr); }
      Split(s4, ' ') + [snr] + ["dB"];
      { SplitAppendsWord(s3, "SNR:"); }
      Split(s3, ' ') + ["SNR:"] + [snr] + ["dB"];
      { SplitAppendsWord(s2, "dBm"); }
      Split(s2, ' ') + ["dBm"] + ["SNR:"] + [snr] + ["dB"];
      { SplitAppendsWord(s1, rssi); }
      Split(s1, ' ') + [rssi] + ["dBm"] + ["SNR:"] + [snr] + ["dB"];
      { SplitAppendsWord(name, "-"); }
      p + ["-"] + [rssi] + ["dBm"] + ["SNR:"] + [snr] + ["dB"];
      { SixAppended(p, "-", rssi, "dBm", "SNR:", snr, "dB"); }
      p + ["-", rssi, "dBm", "SNR:", snr, "dB"];
    }
  }

  lemma SixAppended(p: seq<string>, a: string, b: string, c: string, d: string, e: string, f: string)
    ensures p + [a] + [b] + [c] + [d] + [e] + [f] == p + [a, b, c, d, e, f]
  {
  }

  /** Where each word of a neighbour's line sits, counted from the end. */
  lemma NeighborLineFields(n: Network)
    ensures var words := Split(NeighborLine(n), ' ');
      && 6 <= |words|
      && words[|words| - 6] == "-" && words[|words| - 4] == "dBm"
      && words[|words| - 3] == "SNR:" && words[|words| - 1] == "dB"
      && words[|words| - 5] == IntToString(n.rssi) && words[|words| - 2] == IntToString(n.rssi + 90)
  {
    var name := if n.ssid.Some? then n.ssid.value else "Unknown SSID";
    var tail := ["-", IntToString(n.rssi), "dBm", "SNR:", IntToString(n.rssi + 90), "dB"];
    var words := Split(NeighborLine(n), ' ');
    NeighborLineWords(n);
    var k := |Split(name, ' ')|;
    assert words == Split(name, ' ') + tail;
    assert |words| - 6 == k;
  }

  /** The RSSI and the SNR printed on a neighbour's line parse back to the
      network's RSSI and to that RSSI plus 90. */
  lemma NeighborLineReadsBack(n: Network)
    ensures var words := Split(NeighborLine(n), ' ');
      && 6 <= |words|
      && words[|words| - 6] == "-" && words[|words| - 4] == "dBm"
      && words[|words| - 3] == "SNR:" && words[|words| - 1] == "dB"
      && ParseInt(words[|words| - 5]) == Some(n.rssi)
      && (n.rssi + 90 <= MaxInt64 ==> ParseInt(words[|words| - 2]) == Some(n.rssi + 90))
  {
    NeighborLineFields(n);
    ParseIntOfIntToString(n.rssi);
    if n.rssi + 90 <= MaxInt64 {
      ParseIntOfIntToString(n.rssi + 90);
    }
  }

  /** The new view after one refresh, and whether the refresh goes on to log. */
  datatype Update = Update(view: View, logs: bool)

  function GetWiFiInfo(v: View, reading: Reading): (u: Update)
    ensures u.logs <==> reading.Present?
    ensures reading.NoInterface? ==>
      && u.view.ssid == "No interface found"
      && u.view.signalStrength == Placeholder && u.view.bssid == Placeholder
      && u.view.channel == Placeholder && u.view.channelWidth == Placeholder
      && u.view.snr == Placeholder && u.view.bandwidth == Placeholder
      && u.view.neighborhood == v.neighborhood
    ensures reading.Present? ==>
      && u.view.ssid == (if reading.iface.ssid.Some? then reading.iface.ssid.value else "Unknown SSID")
      && u.view.bssid == (if reading.iface.bssid.Some? then reading.iface.bssid.value else "Unknown BSSID")
      && u.view.signalStrength == IntToString(reading.iface.rssi) + " dBm"
      && u.view.snr == IntToString(reading.iface.rssi + 90) + " dB"
    ensures reading.Present? && reading.iface.channel.None? ==>
      u.view.channel == v.channel && u.view.channelWidth == v.channelWidth && u.view.bandwidth == v.bandwidth
    ensures reading.Present? && reading.iface.channel.Some? ==>
      var width := WidthScaledRawValue(reading.iface.channel.value.width);
      && u.view.channel == IntToString(reading.iface.channel.value.number)
      && u.view.channelWidth == IntToString(width) + " MHz"
      && u.view.bandwidth == IntToString(EstimateBandwidth(reading.iface.rssi, width)) + " Mbps"
    ensures reading.Present? && reading.scan.Scanned? ==>
      && |u.view.neighborhood| == |reading.scan.networks|
      && forall i :: 0 <= i < |u.view.neighborhood| ==>
           u.view.neighborhood[i] == NeighborLine(reading.scan.networks[i])
    ensures reading.Present? && reading.scan.ScanFailed? ==> u.view.neighborhood == [ScanFailureNotice]
  {
    match reading
    case NoInterface =>
      Update(View("No interface found", Placeholder, Placeholder, Placeholder, Placeholder, Placeholder,
                  Placeholder, v.neighborhood),
             false)
    case Present(iface, scan) =>
      var ssid := match iface.ssid case Some(s) => s case None => "Unknown SSID";
      var bssid := match iface.bssid case Some(b) => b case None => "Unknown BSSID";
      var signal := IntToString(iface.rssi) + " dBm";
      var (channel, channelWidth, bandwidth) :=
        match iface.channel
        case Some(c) =>
          var width := WidthScaledRawValue(c.width);
          (IntToString(c.number), IntToString(width) + " MHz",
           IntToString(EstimateBandwidth(iface.rssi, width)) + " Mbps")
        case None => (v.channel, v.channelWidth, v.bandwidth);
      var snr := IntToString(iface.rssi - NoiseFloor) + " dB";
      var neighborhood :=
        match scan
        case Scanned(networks) => seq(|networks|, i requires 0 <= i < |networks| => NeighborLine(networks[i]))
        case ScanFailed(_) => [ScanFailureNotice];
      Update(View(ssid, signal, channel, channelWidth, bssid, snr, bandwidth, neighborhood), true)
  }

  /** Refreshing twice from the same reading leaves the view as one refresh did. */
  lemma GetWiFiInfoIdempotent(v: View, reading: Reading)
    ensures GetWiFiInfo(GetWiFiInfo(v, reading).view, reading) == GetWiFiInfo(v, reading)
  {
  }

  // ---------------------------------------------------------------------------
  // Logging

  /** The labelled status fields of a record, units appended as written. */
  function StatusFields(v: View): seq<string>
  {
    ["SSID: " + v.ssid,
     "BSSID: " + v.bssid,
     "Signal Strength: " + v.signalStrength + " dBm",
     "Channel: " + v.channel,
     "Channel Width: " + v.channelWidth + " MHz",
     "SNR: " + v.snr + " dB",
     "Estimated Bandwidth: " + v.bandwidth + " Mbps"]
  }

  function HeaderLine(v: View, timestamp: string): string
  {
    "[" + timestamp + "], " + Join(StatusFields(v), ", ")
  }

  /** A header line, whatever follows it, starts with the timestamp and the SSID. */
  lemma HeaderOpensWithSsid(v: View, timestamp: string, rest: string)
    ensures "[" + timestamp + "], SSID: " + v.ssid + ", " <= HeaderLine(v, timestamp) + rest
  {
    var fields := StatusFields(v);
    var stamp := "[" + timestamp;
    var others := Join(fields[1..], ", ");
    calc {
      HeaderLine(v, timestamp);
      stamp + "], " + (("SSID: " + v.ssid) + ", " + others);
      { ConcatAssociates(stamp + "], ", ("SSID: " + v.ssid) + ", ", others); }
      stamp + "], " + (("SSID: " + v.ssid) + ", ") + others;
      { ConcatAssociates(stamp + "], ", "SSID: " + v.ssid, ", "); }
      stamp + "], " + ("SSID: " + v.ssid) + ", " + others;
      { ConcatAssociates(stamp + "], ", "SSID: ", v.ssid);
        ConcatAssociates(stamp, "], ", "SSID: ");
        assert "], " + "SSID: " == "], SSID: "; }
      stamp + "], SSID: " + v.ssid + ", " + others;
    }
    ConcatAssociates(stamp + "], SSID: " + v.ssid + ", ", others, rest);
  }

  /** The record: the status fields, then the neighbours one per line. */
  function LogEntry(v: View, timestamp: string): (entry: string)
    ensures "[" + timestamp + "], SSID: " + v.ssid + ", " <= entry
    ensures |v.neighborhood| == 0 ==> entry == HeaderLine(v, timestamp) + ", Nearby Networks: "
    ensures |v.neighborhood| > 0 ==> EndsWith(entry, v.neighborhood[|v.neighborhood| - 1])
  {
    var first := HeaderLine(v, timestamp) + ", Nearby Networks: ";
    var block := Join(v.neighborhood, "\n");
    HeaderOpensWithSsid(v, timestamp, ", Nearby Networks: " + block);
    ConcatAssociates(HeaderLine(v, timestamp), ", Nearby Networks: ", block);
    if |v.neighborhood| == 0 then
      assert first + block == first;
      first + block
    else
      EndsWithExtended(first, block, v.neighborhood[|v.neighborhood| - 1]);
      first + block
  }

  /** Appends the record and one newline; a failed write is swallowed. */
  function LogWiFiInfo(v: View, timestamp: string, f: LogFile.File, ioFails: bool): (r: LogFile.File)
    ensures ioFails ==> r == f
    ensures !ioFails ==> r.Some? && LogFile.Contents(r) == LogFile.Contents(f) + LogEntry(v, timestamp) + "\n"
  {
    LogFile.Append(f, LogEntry(v, timestamp), ioFails)
  }

  /** In the log, a record's first line holds the status fields and the first
      neighbour, every further neighbour has a line of its own, and the record
      ends at the next line break. */
  lemma LoggedRecordLines(v: View, timestamp: string)
    requires '\n' !in HeaderLine(v, timestamp)
    requires forall i :: 0 <= i < |v.neighborhood| ==> '\n' !in v.neighborhood[i]
    ensures var first := HeaderLine(v, timestamp) + ", Nearby Networks: ";
      Split(LogEntry(v, timestamp) + "\n", '\n')
      == (if |v.neighborhood| == 0 then [first] else [first + v.neighborhood[0]] + v.neighborhood[1..]) + [""]
  {
    var first := HeaderLine(v, timestamp) + ", Nearby Networks: ";
    var block := Join(v.neighborhood, "\n");
    assert LogEntry(v, timestamp) + "\n" == first + block + ['\n'] + [];
    SplitConcat(first + block, '\n', []);
    SplitGlue(first, '\n', block);
    if |v.neighborhood| == 0 {
      assert Split(block, '\n') == [""];
      assert first + "" == first;
    } else {
      SplitJoin(v.neighborhood, '\n');
    }
  }

  /** The record of a refresh carries every unit twice: signal strength, and,
      when the interface reports a channel, channel width and bandwidth, and SNR. */
  lemma LoggedUnits(v: View, reading: Reading)
    requires reading.Present?
    ensures StatusFields(GetWiFiInfo(v, reading).view)[2]
         == "Signal Strength: " + IntToString(reading.iface.rssi) + " dBm dBm"
    ensures StatusFields(GetWiFiInfo(v, reading).view)[5]
         == "SNR: " + IntToString(reading.iface.rssi + 90) + " dB dB"
    ensures reading.iface.channel.Some? ==>
      var width := WidthScaledRawValue(reading.iface.channel.value.width);
      && StatusFields(GetWiFiInfo(v, reading).view)[4] == "Channel Width: " + IntToString(width) + " MHz MHz"
      && StatusFields(GetWiFiInfo(v, reading).view)[6]
         == "Estimated Bandwidth: " + IntToString(EstimateBandwidth(reading.iface.rssi, width)) + " Mbps Mbps"
  {
    DoubledUnit("Signal Strength: ", IntToString(reading.iface.rssi), " dBm");
    assert " dBm" + " dBm" == " dBm dBm";
    DoubledUnit("SNR: ", IntToString(reading.iface.rssi + 90), " dB");
    assert " dB" + " dB" == " dB dB";
    if reading.iface.channel.Some? {
      var width := WidthScaledRawValue(reading.iface.channel.value.width);
      DoubledUnit("Channel Width: ", IntToString(width), " MHz");
      assert " MHz" + " MHz" == " MHz MHz";
      DoubledUnit("Estimated Bandwidth: ", IntToString(EstimateBandwidth(reading.iface.rssi, width)), " Mbps");
      assert " Mbps" + " Mbps" == " Mbps Mbps";
    }
  }

  /** A value stored with its unit and logged with the unit again. */
  lemma DoubledUnit(caption: string, value: string, suffix: string)
    ensures caption + (value + suffix) + suffix == caption + value + (suffix + suffix)
  {
    ConcatAssociates(caption, value, suffix);
    ConcatAssociates(caption + value, suffix, suffix);
  }

  // ---------------------------------------------------------------------------
  // One refresh cycle and a run of them

  datatype Cycle = Cycle(view: View, file: LogFile.File)

  /** One refresh (timer tick or button): update the view from the reading and,
      when an interface was present, append the record stamped `timestamp`. */
  function Refresh(v: View, reading: Reading, timestamp: string, f: LogFile.File, ioFails: bool): (c: Cycle)
    ensures c.view == GetWiFiInfo(v, reading).view
    ensures reading.NoInterface? || ioFails ==> c.file == f
    ensures reading.Present? && !ioFails ==> c.file.Some?
    ensures LogFile.Contents(c.file)
         == LogFile.Contents(f) + (if reading.Present? && !ioFails then LogEntry(c.view, timestamp) + "\n" else "")
  {
    var u := GetWiFiInfo(v, reading);
    if u.logs then
      var logged := LogWiFiInfo(u.view, timestamp, f, ioFails);
      ConcatAssociates(LogFile.Contents(f), LogEntry(u.view, timestamp), "\n");
      assert LogFile.Contents(f) + "" == LogFile.Contents(f);
      Cycle(u.view, logged)
    else
      Cycle(u.view, f)
  }

  /** What the environment supplies to one refresh. */
  datatype Tick = Tick(reading: Reading, timestamp: string, ioFails: bool)

  /** A sequence of refreshes, one after the other. */
  function Run(v: View, f: LogFile.File, ticks: seq<Tick>): (c: Cycle)
    ensures LogFile.Contents(f) <= LogFile.Contents(c.file)
    ensures (forall i :: 0 <= i < |ticks| ==> ticks[i].reading.NoInterface?) ==> c.file == f
    decreases |ticks|
  {
    if |ticks| == 0 then Cycle(v, f)
    else
      var c := Refresh(v, ticks[0].reading, ticks[0].timestamp, f, ticks[0].ioFails);
      Run(c.view, c.file, ticks[1..])
  }

  /** The number of refreshes in `ticks` that see an interface. */
  function LoggingTicks(ticks: seq<Tick>): nat
    decreases |ticks|
  {
    if |ticks| == 0 then 0
    else (if ticks[0].reading.Present? then 1 else 0) + LoggingTicks(ticks[1..])
  }

  /** The log writes a run attempts, in order: one per refresh that sees an
      interface, holding that refresh's record and whether its write fails. */
  function RunWrites(v: View, ticks: seq<Tick>): (writes: seq<LogFile.Write>)
    ensures |writes| == LoggingTicks(ticks)
    decreases |ticks|
  {
    if |ticks| == 0 then []
    else
      var u := GetWiFiInfo(v, ticks[0].reading);
      (if u.logs then [LogFile.Write(LogEntry(u.view, ticks[0].timestamp), ticks[0].ioFails)] else [])
      + RunWrites(u.view, ticks[1..])
  }

  /** A run leaves the log as performing its writes in order would. */
  lemma {:induction false} RunPerformsRunWrites(v: View, f: LogFile.File, ticks: seq<Tick>)
    ensures Run(v, f, ticks).file == LogFile.AppendAll(f, RunWrites(v, ticks))
    decreases |ticks|
  {
    if |ticks| > 0 {
      var t := ticks[0];
      var u := GetWiFiInfo(v, t.reading);
      var c := Refresh(v, t.reading, t.timestamp, f, t.ioFails);
      RunPerformsRunWrites(c.view, c.file, ticks[1..]);
      var rest := RunWrites(u.view, ticks[1..]);
      if u.logs {
        var w := LogFile.Write(LogEntry(u.view, t.timestamp), t.ioFails);
        assert ([w] + rest)[0] == w && ([w] + rest)[1..] == rest;
      } else {
        assert [] + rest == rest;
      }
    }
  }

  /** Started from the initial view with no log file, a run's log holds exactly
      the records of the refreshes that saw an interface and wrote successfully,
      in order, and the file exists exactly when one such write happened. */
  lemma RunFromLaunch(ticks: seq<Tick>)
    ensures LogFile.Contents(Run(InitialView, None, ticks).file) == LogFile.Written(RunWrites(InitialView, ticks))
    ensures Run(InitialView, None, ticks).file.Some? <==> LogFile.AnySucceeds(RunWrites(InitialView, ticks))
  {
    RunPerformsRunWrites(InitialView, None, ticks);
    LogFile.AppendAllWritesInOrder(None, RunWrites(InitialView, ticks));
    LogFile.AppendAllCreates(None, RunWrites(InitialView, ticks));
  }
}

=== FILE: text.dfy ===
/**
 The string and integer helpers both views rely on: Swift's decimal rendering
 of an `Int` (string interpolation), `Int(String)` parsing, truncating integer
 division, `components(separatedBy:)` with a one-character separator, and
 `joined(separator:)`.
 */
module Text {

  datatype Option<+T> = None | Some(value: T)

  /** Bounds of Swift's `Int` on a 64-bit platform. */
  const MinInt64: int := -0x8000_0000_0000_0000
  const MaxInt64: int := 0x7fff_ffff_ffff_ffff

  type Int64 = x: int | MinInt64 <= x <= MaxInt64

  function Min(a: int, b: int): int { if a <= b then a else b }

  function Max(a: int, b: int): int { if a <= b then b else a }

  /** Scaling by a non-negative factor keeps the order of non-negative values. */
  lemma MulMonotone(a: int, b: int, w: int)
    requires 0 <= a <= b
    ensures w >= 0 ==> 0 <= a * w <= b * w
  {
    if w >= 0 {
      assert b * w - a * w == (b - a) * w;
    }
  }

  /** Swift's `a / 10` on `Int`: the quotient is truncated toward zero, so a
      negative dividend rounds up rather than down. */
  function DivTrunc10(a: int): (q: int)
    ensures a >= 0 ==> 0 <= 10 * q <= a < 10 * q + 10
    ensures a < 0 ==> 10 * q - 10 < a <= 10 * q <= 0
  {
    if a >= 0 then a / 10 else -((-a) / 10)
  }

  lemma ConcatAssociates(a: string, b: string, c: string)
    ensures a + b + c == a + (b + c)
  {
  }

  // ---------------------------------------------------------------------------
  // Decimal rendering and parsing

  predicate IsDigit(c: char) { '0' <= c <= '9' }

  predicate AllDigits(s: string) { forall i :: 0 <= i < |s| ==> IsDigit(s[i]) }

  function DigitChar(d: nat): (c: char)
    requires d < 10
    ensures IsDigit(c)
  {
    ('0' as int + d) as char
  }

  function DigitValue(c: char): (d: nat)
    requires IsDigit(c)
    ensures d < 10
  {
    c as int - '0' as int
  }

  /** The decimal digits of `n`, most significant first, without leading zeros. */
  function NatToDecimal(n: nat): (s: string)
    ensures 1 <= |s| && AllDigits(s)
    ensures |s| > 1 ==> s[0] != '0'
  {
    if n < 10 then [DigitChar(n)] else NatToDecimal(n / 10) + [DigitChar(n % 10)]
  }

  /** The value of a string of decimal digits (the empty string is 0). */
  function DigitsValue(s: string): nat
    requires AllDigits(s)
  {
    if |s| == 0 then 0 else DigitsValue(s[..|s| - 1]) * 10 + DigitValue(s[|s| - 1])
  }

  /** Swift's `"\(n)"` for an `Int`: a minus sign for negative values, then the
      digits without leading zeros; never a `+`. */
  function IntToString(n: int): (s: string)
    ensures 1 <= |s|
    ensures s[0] == '-' <==> n < 0
    ensures n >= 0 ==> AllDigits(s) && (1 < |s| ==> s[0] != '0')
    ensures n < 0 ==> 2 <= |s| && AllDigits(s[1..]) && s[1] != '0'
    ensures forall i :: 0 <= i < |s| ==> s[i] != ' ' && s[i] != '\n' && s[i] != ','
  {
    if n < 0 then "-" + NatToDecimal(-n) else NatToDecimal(n)
  }

  /** Swift's failable `Int(String)`: an optional `+` or `-`, at least one digit
      and nothing else, and a value that fits in `Int`. */
  function ParseInt(s: string): (r: Option<Int64>)
    ensures r.Some? ==> 1 <= |s| && (IsDigit(s[0]) || s[0] == '-' || s[0] == '+')
    ensures r.Some? ==> forall i :: 1 <= i < |s| ==> IsDigit(s[i])
    ensures r.Some? && s[0] == '-' ==> r.value <= 0
    ensures r.Some? && s[0] != '-' ==> r.value >= 0
    ensures r.Some? ==> IsDigit(s[|s| - 1])
    ensures 1 <= |s| && AllDigits(s) && MaxInt64 < DigitsValue(s) ==> r.None?
    ensures 2 <= |s| && s[0] == '+' && AllDigits(s[1..]) && MaxInt64 < DigitsValue(s[1..]) ==> r.None?
    ensures 2 <= |s| && s[0] == '-' && AllDigits(s[1..]) && -(DigitsValue(s[1..]) as int) < MinInt64 ==> r.None?
    ensures 1 <= |s| && AllDigits(s) && DigitsValue(s) <= MaxInt64 ==> r == Some(DigitsValue(s))
    ensures 2 <= |s| && s[0] == '+' && AllDigits(s[1..]) && DigitsValue(s[1..]) <= MaxInt64
         ==> r == Some(DigitsValue(s[1..]))
    ensures 2 <= |s| && s[0] == '-' && AllDigits(s[1..]) && MinInt64 <= -(DigitsValue(s[1..]) as int)
         ==> r == Some(-(DigitsValue(s[1..]) as int))
  {
    var signed := 0 < |s| && (s[0] == '-' || s[0] == '+');
    var digits := if signed then s[1..] else s;
    if |digits| == 0 || !AllDigits(digits) then None
    else
      var v: int := if signed && s[0] == '-' then -(DigitsValue(digits) as int) else DigitsValue(digits);
      if MinInt64 <= v <= MaxInt64 then Some(v) else None
  }

  lemma {:induction false} DigitsValueOfDecimal(n: nat)
    ensures DigitsValue(NatToDecimal(n)) == n
  {
    if n >= 10 {
      var s := NatToDecimal(n);
      var prefix := NatToDecimal(n / 10);
      assert s[..|s| - 1] == prefix;
      DigitsValueOfDecimal(n / 10);
    }
  }

  /** Rendering an `Int` and parsing it back gives the same value. */
  lemma ParseIntOfIntToString(n: Int64)
    ensures ParseInt(IntToString(n)) == Some(n)
  {
    if n < 0 {
      var m: nat := -(n as int);
      assert IntToString(n)[1..] == NatToDecimal(m);
      DigitsValueOfDecimal(m);
    } else {
      DigitsValueOfDecimal(n);
    }
  }

  // ---------------------------------------------------------------------------
  // Splitting and joining

  /** Swift's `s.components(separatedBy: String(sep))`: the pieces between
      occurrences of `sep`; the empty string gives one empty piece. */
  function Split(s: string, sep: char): (parts: seq<string>)
    ensures 1 <= |parts|
    ensures forall i :: 0 <= i < |parts| ==> sep !in parts[i]
  {
    if |s| == 0 then [""]
    else
      var rest := Split(s[1..], sep);
      if s[0] == sep then [""] + rest else [[s[0]] + rest[0]] + rest[1..]
  }

  /** Swift's `parts.joined(separator: sep)`: the parts in order with `sep`
      between neighbours; it starts with the first part and ends with the last. */
  function Join(parts: seq<string>, sep: string): (joined: string)
    ensures |parts| == 0 ==> joined == ""
    ensures 1 <= |parts| ==> parts[0] <= joined && EndsWith(joined, parts[|parts| - 1])
  {
    if |parts| == 0 then ""
    else if |parts| == 1 then parts[0]
    else
      var rest := Join(parts[1..], sep);
      assert parts[1..][|parts| - 2] == parts[|parts| - 1];
      EndsWithExtended(parts[0] + sep, rest, parts[|parts| - 1]);
      parts[0] + sep + rest
  }

  /** The first piece of a split is a prefix of the string. */
  lemma {:induction false} SplitFirstIsPrefix(s: string, sep: char)
    ensures Split(s, sep)[0] <= s
  {
    if |s| > 0 && s[0] != sep {
      SplitFirstIsPrefix(s[1..], sep);
      assert s == [s[0]] + s[1..];
    }
  }

  /** A string without the separator is a single piece. */
  lemma {:induction false} SplitWithoutSeparator(a: string, sep: char)
    requires sep !in a
    ensures Split(a, sep) == [a]
  {
    if |a| > 0 {
      SplitWithoutSeparator(a[1..], sep);
      assert [a[0]] + a[1..] == a;
    }
  }

  /** Splitting at an occurrence of the separator splits the pieces there. */
  lemma {:induction false} SplitConcat(a: string, sep: char, b: string)
    ensures Split(a + [sep] + b, sep) == Split(a, sep) + Split(b, sep)
  {
    if |a| > 0 {
      assert (a + [sep] + b)[1..] == a[1..] + [sep] + b;
      SplitConcat(a[1..], sep, b);
    } else {
      assert a + [sep] + b == [sep] + b;
    }
  }

  /** Two separator-free lines, a block, and two more separators split into
      the two lines, the block's pieces, and two empty pieces. */
  lemma SplitTwoLinesBlockTwoBreaks(first: string, second: string, block: string, sep: char)
    requires sep !in first && sep !in second
    ensures Split(first + [sep] + second + [sep] + block + [sep] + [sep], sep)
         == [first, second] + Split(block, sep) + ["", ""]
  {
    var lines := first + [sep] + second;
    var body := lines + [sep] + block;
    var pieces := Split(block, sep);
    calc {
      Split(body + [sep] + [sep], sep);
      { assert body + [sep] + [sep] == (body + [sep]) + [sep] + [];
        SplitConcat(body + [sep], sep, []); }
      Split(body + [sep], sep) + [""];
      { assert body + [sep] == body + [sep] + [];
        SplitConcat(body, sep, []); }
      Split(body, sep) + [""] + [""];
      { SplitConcat(lines, sep, block); }
      Split(lines, sep) + pieces + [""] + [""];
      { SplitConcat(first, sep, second);
        SplitWithoutSeparator(first, sep);
        SplitWithoutSeparator(second, sep); }
      [first] + [second] + pieces + [""] + [""];
      [first, second] + pieces + ["", ""];
    }
  }

  /** A prefix without the separator is glued onto the first piece of the rest. */
  lemma {:induction false} SplitGlue(a: string, sep: char, b: string)
    requires sep !in a
    ensures Split(a + b, sep) == [a + Split(b, sep)[0]] + Split(b, sep)[1..]
  {
    if |a| > 0 {
      assert (a + b)[1..] == a[1..] + b;
      SplitGlue(a[1..], sep, b);
      assert [a[0]] + (a[1..] + Split(b, sep)[0]) == a + Split(b, sep)[0];
    } else {
      assert a + b == b;
      assert a + Split(b, sep)[0] == Split(b, sep)[0];
      assert Split(b, sep) == [Split(b, sep)[0]] + Split(b, sep)[1..];
    }
  }

  /** Splitting undoes joining when no piece holds the separator. */
  lemma {:induction false} SplitJoin(parts: seq<string>, sep: char)
    requires 1 <= |parts|
    requires forall i :: 0 <= i < |parts| ==> sep !in parts[i]
    ensures Split(Join(parts, [sep]), sep) == parts
  {
    if |parts| == 1 {
      assert Split(parts[0] + [], sep) == [parts[0] + Split([], sep)[0]] by {
        SplitGlue(parts[0], sep, []);
      }
      assert parts[0] + [] == parts[0];
    } else {
      SplitJoin(parts[1..], sep);
      SplitConcat(parts[0], sep, Join(parts[1..], [sep]));
      SplitWithoutSeparator(parts[0], sep);
      assert [parts[0]] + parts[1..] == parts;
    }
  }

  /** Joining after an empty first piece starts with the separator. */
  lemma JoinAfterEmpty(rest: seq<string>, sep: string)
    requires 1 <= |rest|
    ensures Join([""] + rest, sep) == sep + Join(rest, sep)
  {
    var parts := [""] + rest;
    assert parts[1..] == rest;
    assert "" + sep == sep;
  }

  /** Putting a character in front of the first piece puts it in front of the join. */
  lemma JoinGlued(c: char, rest: seq<string>, sep: string)
    requires 1 <= |rest|
    ensures Join([[c] + rest[0]] + rest[1..], sep) == [c] + Join(rest, sep)
  {
    var parts := [[c] + rest[0]] + rest[1..];
    assert parts[1..] == rest[1..];
    if |rest| > 1 {
      var others := Join(rest[1..], sep);
      calc {
        Join(parts, sep);
        [c] + rest[0] + sep + others;
        { ConcatAssociates([c] + rest[0], sep, others);
          ConcatAssociates([c], rest[0], sep + others); }
        [c] + (rest[0] + (sep + others));
        { ConcatAssociates(rest[0], sep, others); }
        [c] + Join(rest, sep);
      }
    }
  }

  /** Joining undoes splitting, for every string. */
  lemma {:induction false} JoinSplit(s: string, sep: char)
    ensures Join(Split(s, sep), [sep]) == s
  {
    if |s| > 0 {
      var rest := Split(s[1..], sep);
      JoinSplit(s[1..], sep);
      assert s == [s[0]] + s[1..];
      if s[0] == sep {
        JoinAfterEmpty(rest, [sep]);
      } else {
        JoinGlued(s[0], rest, [sep]);
      }
    }
  }

  /** `s` ends with `suffix`. */
  predicate EndsWith(s: string, suffix: string)
  {
    |suffix| <= |s| && s[|s| - |suffix|..] == suffix
  }

  lemma EndsWithAppended(a: string, b: string)
    ensures EndsWith(a + b, b)
  {
  }

  lemma EndsWithExtended(a: string, b: string, suffix: string)
    requires EndsWith(b, suffix)
    ensures EndsWith(a + b, suffix)
  {
    assert (a + b)[|a + b| - |suffix|..] == b[|b| - |suffix|..];
  }
}

=== FILE: variants.dfy ===
/**
 The two views side by side: where their copies of the same code agree, and
 where their refreshes deliberately differ.
 */
module Variants {
  import opened Platform
  import Dashboard
  import SignalInfo

  /** Both views compute the same bandwidth estimate. The two definitions are
      the same text, copied from one source file into the other; this lemma only
      records that duplication. */
  lemma EstimatesAgree(signalStrength: int, channelWidth: int)
    ensures Dashboard.EstimateBandwidth(signalStrength, channelWidth)
         == SignalInfo.EstimateBandwidth(signalStrength, channelWidth)
  {
  }

  /** The plainer view's estimate is monotonic in the signal strength too. */
  lemma SignalInfoEstimateMonotonic(weaker: int, stronger: int, channelWidth: int)
    requires weaker <= stronger
    requires channelWidth >= 0
    ensures SignalInfo.EstimateBandwidth(weaker, channelWidth) <= SignalInfo.EstimateBandwidth(stronger, channelWidth)
  {
    EstimatesAgree(weaker, channelWidth);
    EstimatesAgree(stronger, channelWidth);
    Dashboard.EstimateBandwidthMonotonic(weaker, stronger, channelWidth);
  }

  /** From the same reading both views show the same SSID, BSSID, signal and
      SNR text; without an interface the dashboard empties its neighbour list
      while the plainer view keeps its old one. */
  lemma RefreshesCompared(d: Dashboard.View, s: SignalInfo.View, reading: Reading)
    ensures Dashboard.GetWiFiInfo(d, reading).view.ssid == SignalInfo.GetWiFiInfo(s, reading).view.ssid
    ensures Dashboard.GetWiFiInfo(d, reading).view.bssid == SignalInfo.GetWiFiInfo(s, reading).view.bssid
    ensures Dashboard.GetWiFiInfo(d, reading).view.signalStrength
         == SignalInfo.GetWiFiInfo(s, reading).view.signalStrength
    ensures Dashboard.GetWiFiInfo(d, reading).view.snr == SignalInfo.GetWiFiInfo(s, reading).view.snr
    ensures Dashboard.GetWiFiInfo(d, reading).logs == SignalInfo.GetWiFiInfo(s, reading).logs
    ensures reading.NoInterface? ==>
      Dashboard.GetWiFiInfo(d, reading).view.neighborhood == [] &&
      SignalInfo.GetWiFiInfo(s, reading).view.neighborhood == s.neighborhood
  {
  }
}
